=== FILE: README.md ===
# bulk-mint workload logic, modelled in Dafny

This project models the workload-specific part of the `bulk-mint` tool. That tool drives an
Aptos NFT contract through many transactions. The part modelled here:

- resolves the contract's module reference (`get_module_id`);
- bootstraps a test collection (`create_test_collection`). It creates the collection, reads the
  configuration object's address from the `CreateCollectionConfig` event, then switches minting on
  for that object;
- provides two `SignedTransactionBuilder` variants, as the tagged union `Builders.Builder`:
  - **Mint**: a single-signer call `mint_entry_fun(collection_config_object, recipient)`;
  - **Burn**: a multi-agent call `burn_entry_fun(collection_config_object, token)`, sent by the
    per-call account and co-signed by the admin;
- turns one work item and its optional on-chain outcome into one tab-separated report line
  (`success_output`).

Modules:

- `Wrappers` (`wrappers.dfy`): `Option` and `Result`. An error is kept as its `to_string()` text.
- `TabSeparated` (`tab_separated.dfy`): splitting and joining on a separator, proved inverse in
  both directions, and separator counting. The report format `"{}\t{}\t{}\t{}"` is `Format4`.
- `MoveTypes` (`move_types.dfy`): addresses (32 bytes), `u64`, identifiers, `ModuleId`, typed
  arguments, entry functions and signed transactions (reduced to who signs and what is called).
- `Builders` (`builders.dfy`): both builders, their `build` and `success_output`, a decoder that
  reads a work item back out of a built call, and the properties of the report line.
- `Collection` (`collection.dfy`): the two calls of the collection bootstrap and the bootstrap
  itself. It is driven by a `submit` function that stands in for the network.

External behaviour is passed in as values:

- Each event lookup (`get_mint_token_addr`, `get_burn_token_addr`, `search_single_event_data`) is
  the `Result` it returns. It is carried in `OnChainData` or `TxnOutput`.
- The two address renderings (`to_standard_string` and `Display`) are the two fields of a `Render`
  value, so they stay distinct and abstract.

Notes on what the code does:

- The address returned by the bootstrap is the event's `collection_config` field, not its
  `collection` field. The mint builder's collection address is a separate command-line input. The
  two are connected only by a call to the bootstrap that is commented out in `main.rs`.
- The mint report's recipient column uses `Display`, while every other address column uses the
  standard rendering.

## Model

| member | source | states |
|---|---|---|
| `MoveTypes.GetModuleId` | bulk-mint/src/its_aptos_thing.rs:18-23 | The module reference carries exactly the given address and name. The name must be a Move identifier, because `IdentStr::new(..).unwrap()` panics otherwise. |
| `MoveTypes.AllSigners` | bulk-mint/src/its_aptos_thing.rs:131-203 | The signer list starts with the sender. A single-signer transaction has no other signer. |
| `Builders.NewMint` | bulk-mint/src/its_aptos_thing.rs:110-121 | The mint builder targets the resolved module, the given entry function and the given collection. Both names must be identifiers. |
| `Builders.NewBurn` | bulk-mint/src/its_aptos_thing.rs:169-180 | The burn builder targets the resolved module and the given entry function, and holds the admin as co-signer. Both names must be identifiers. |
| `Builders.MintBuild` | bulk-mint/src/its_aptos_thing.rs:131-141 | Calls `contract_module::mint_entry_fun` with no type arguments and the two arguments `[collection_owner_address, recipient]`. It is signed by the per-call account alone. It requires a builder that construction could produce (`Valid`). |
| `Builders.BurnBuild` | bulk-mint/src/its_aptos_thing.rs:192-203 | Calls `contract_module::burn_entry_fun` with no type arguments and the two arguments `[data.1, data.0]` (collection, then token). It is sent by the per-call account, and its secondary signers are exactly `[admin]`. It requires a builder that construction could produce (`Valid`). |
| `Builders.Build` | bulk-mint/src/its_aptos_thing.rs:124-204 | Either variant: the call goes to the builder's module and entry function and has two address-typed arguments. Signers are `[account]` for mint and `[account, admin]` for burn. Only builders that construction could produce (`Valid`) are accepted. |
| `Builders.BuildRoundTrip` | bulk-mint/src/its_aptos_thing.rs:124-204 | Decoding the two positional arguments of a built call gives back exactly the work item, for both variants, despite burn's swapped order. |
| `Builders.ReadTargetOnlyBuilt` | bulk-mint/src/its_aptos_thing.rs:124-204 | Every call the decoder accepts is exactly the builder's payload for the decoded item. |
| `Builders.BuildInjective` | bulk-mint/src/its_aptos_thing.rs:124-204 | Distinct work items yield distinct calls. |
| `Builders.StatusText` | bulk-mint/src/its_aptos_thing.rs:145-150 | The status text reads back as its status. For an error, this holds unless the error text is literally `success` or `missing`. |
| `Builders.MintFields` | bulk-mint/src/its_aptos_thing.rs:145-158 | Three-way status: no outcome gives `missing` with an empty token. `Ok(dst)` gives `success` with `Std(dst)`. `Err(e)` gives `e`'s text with an empty token. The collection (`Std`) and recipient (`Display`) columns are always filled. |
| `Builders.MintSuccessOutput` | bulk-mint/src/its_aptos_thing.rs:152-158 | The line has three tabs plus any its columns contain. If the columns contain none, splitting on tab gives exactly the four mint columns. |
| `Builders.BurnFields` | bulk-mint/src/its_aptos_thing.rs:211-232 | Same three-way status. On success the refund column is the sender of the signed user transaction; otherwise it is empty. Token and collection are always filled, in tuple order. `unwrap` is a precondition on the success branch. |
| `Builders.BurnSuccessOutput` | bulk-mint/src/its_aptos_thing.rs:226-232 | The line has three tabs plus any its columns contain. If the columns contain none, splitting on tab gives exactly the four burn columns. |
| `Builders.ReportFields` | bulk-mint/src/its_aptos_thing.rs:145-232 | Either variant's four columns. The last is the status text for the outcome's lookup. The first is empty unless the status is success. The middle two are the configuration- and item-derived addresses: collection and recipient for mint, token and collection for burn. |
| `Builders.SuccessOutput` | bulk-mint/src/its_aptos_thing.rs:144-232 | Either variant: a tab-free set of columns is what the line splits back into. |
| `Builders.ReportLineShape` | bulk-mint/src/its_aptos_thing.rs:144-232 | With tab-free renderings and error texts, every line splits into exactly four fields. The last field is `success`, the error text, or `missing`, according to the outcome. |
| `Builders.StatusColumnFaithful` | bulk-mint/src/its_aptos_thing.rs:145-225 | The status column reads back as the intended status. It is `success` exactly when an outcome exists and its lookup succeeded. With non-empty renderings, the first column is filled exactly on success. |
| `Builders.KnownColumnsIndependentOfOutcome` | bulk-mint/src/its_aptos_thing.rs:152-232 | The two columns that come from the work item and the configuration do not depend on the outcome. |
| `Builders.BurnOrderReversed` | bulk-mint/src/its_aptos_thing.rs:198-230 | The burn report prints token then collection. That is the reverse of the burn call's argument order. |
| `Builders.RefundGoesToSender` | bulk-mint/src/its_aptos_thing.rs:213-221 | When the recorded transaction is the one built for the item, a successful burn reports the per-call sender as the refund address. If the standard rendering is injective and the sender is not the admin, the column is not the admin's address. |
| `Builders.DefaultNamesAreIdentifiers` | bulk-mint/src/main.rs:50-71 | The command line's default module and entry-function names meet the builders' identifier precondition. |
| `Builders.MintedExample` | bulk-mint/src/its_aptos_thing.rs:144-158 | A minted token under collection `0xC1` for recipient `0xA1` reports `0xFF\t0xC1\t0xA1\tsuccess`. |
| `Builders.MissingExample` | bulk-mint/src/its_aptos_thing.rs:144-158 | A mint with no outcome reports `\t0xC1\t0xA2\tmissing`. |
| `Builders.BurnedExample` | bulk-mint/src/its_aptos_thing.rs:206-232 | A confirmed burn sent by `0xA3` reports `0xA3\t0xT1\t0xC1\tsuccess`. |
| `TabSeparated.Split` | bulk-mint/src/its_aptos_thing.rs:152-158 | How a reader of the line formatted at :152-158 splits it on tab (Rust `str::split`). Splitting yields one more field than there are separators, and no field contains the separator. |
| `TabSeparated.Join` | bulk-mint/src/its_aptos_thing.rs:152-158 | A joined line has one separator per gap, plus those inside its fields. |
| `TabSeparated.Format4` | bulk-mint/src/its_aptos_thing.rs:152-158 | The format `"{}\t{}\t{}\t{}"` is the tab-join of its four arguments. |
| `TabSeparated.SplitJoin` | bulk-mint/src/its_aptos_thing.rs:152-158 | For a reader of the line formatted at :152-158: splitting a joined line returns its fields when no field contains the separator. |
| `TabSeparated.JoinSplit` | bulk-mint/src/its_aptos_thing.rs:152-158 | For a reader of the line formatted at :152-158: joining the fields of any split line returns the line. |
| `TabSeparated.Format4Fields` | bulk-mint/src/its_aptos_thing.rs:226-232 | A four-field line has exactly three more tabs than its fields. If the fields contain none, it splits back into exactly those four. |
| `Collection.CollectionName` | bulk-mint/src/its_aptos_thing.rs:41 | The collection name is the prefix `Test Collection ` followed by the random suffix, which can be read back from the name. |
| `Collection.CreateCollectionArgs` | bulk-mint/src/its_aptos_thing.rs:48-63 | The 14 arguments match, in order, the parameter types named by the comment beside each argument (the contract's own declaration is not part of this model). |
| `Collection.CreateCollectionCall` | bulk-mint/src/its_aptos_thing.rs:43-63 | `create_collection` is a valid identifier, with no type arguments and 14 arguments typed as their comments name them. The name comes first. The token URIs are the two fixed URIs, weighted `[10, 1]`. Tokens are burnable but not transferable by the owner. `max_supply = Some(1000000)`, and both royalty fields are `None`. |
| `Collection.CreateCollectionFixedValues` | bulk-mint/src/its_aptos_thing.rs:50-57 | Arguments 1–4 are the fixed description, collection-URI, token-prefix and token-description strings. Arguments 7 and 8 (mutable collection and token metadata) are `true`. |
| `Collection.SetMintingStatusCall` | bulk-mint/src/its_aptos_thing.rs:80-90 | `set_minting_status` is a valid identifier. Its arguments are `[config, true]`, typed `(address, bool)`. |
| `Collection.CreateTestCollection` | bulk-mint/src/its_aptos_thing.rs:32-101 | The create call is submitted first. Activation is submitted exactly when the create succeeded and its event was found, and it targets the event's `collection_config`. The procedure returns that address exactly when both transactions succeed. It panics exactly on a non-success status. It fails through `?` exactly when a submission fails or the create event is not found, and then carries that step's own error text unchanged. |
| `Collection.NoActivationWithoutEvent` | bulk-mint/src/its_aptos_thing.rs:67-90 | Any submitted `set_minting_status` is the second transaction, and it follows a confirmed create with its event. |
| `Collection.ActivationTargetFromEvent` | bulk-mint/src/its_aptos_thing.rs:73-89 | The activation call depends only on the create outcome. It names the event's configuration object, not a value supplied by the caller. |
| `Collection.FixedNamesAreIdentifiers` | bulk-mint/src/its_aptos_thing.rs:46-83 | The function names `create_collection` and `set_minting_status` are valid identifiers, as `ident_str!` demands. |
| `MoveTypes.ModuleIdDeterminedByInputs` | bulk-mint/src/its_aptos_thing.rs:18-23 | Two resolved module references are equal exactly when their addresses and names are equal. |

## Left out

- Network submission and waiting (`submit_and_wait_bcs`), `async`, and logging (`info!`). The
  bootstrap takes a `submit` function that maps a signed transaction to what waiting for it returns.
  The builders take the outcome as a value.
- BCS encoding, Ed25519 signing and `TransactionFactory` parameters (gas, expiry, chain id,
  sequence numbers). Arguments stay typed `Arg` values. A signed transaction keeps only its sender,
  its secondary signers and its payload.
- The internals of the event-lookup helpers (exactly-one matching, type-tag strings, payload
  decoding). The library code is not part of this model; only the `Result` each lookup returns is
  modelled.
- `MoveTypes.IsIdentifier` states the classic Move rule: a letter, or an underscore followed by at
  least one character, then letters, digits and underscores. The library's special forms
  (`<SELF>`, `$`-prefixed names) are not modelled.
- `rand_string(10)`: randomness. The collection-name suffix is a parameter, and its length is not
  constrained.
- Address renderings: the text produced by `to_standard_string` and by `Display` is library
  behaviour. It is an abstract `Render` parameter. The properties about field splitting and
  non-empty columns are stated under explicit assumptions about it (`RendersTabFree`,
  `RendersNonEmpty`).
- `Builders.BurnFields`: the `unwrap` panic on a non-user transaction is a precondition
  (`BurnOutputDefined`), not a modelled panic.
- All of `bulk-mint/src/main.rs`: command-line parsing, cluster and account loading, reading work
  from files, and the concurrent submission engine (`execute_submit`). Only its default names
  appear, in `Builders.DefaultNamesAreIdentifiers`.
- The bootstrap's `LocalAccount` sequence-number state is not modelled. Both bootstrap
  transactions are represented as signed by the admin's address.

=== FILE: builders.dfy ===
/** The two workload variants of `SignedTransactionBuilder`: minting one token
    to a recipient, and burning one token with the collection admin as
    co-signer. Each turns a work item into one signed entry-function call and
    turns the item plus its optional on-chain outcome into one tab-separated
    report line. */
module Builders {
  import opened Wrappers
  import opened MoveTypes
  import TabSeparated

  /** The builder configuration, fixed at construction:
      `NftMintSignedTransactionBuilder` and `NftBurnSignedTransactionBuilder`.
      An account (`LocalAccount`) is represented by its address. */
  datatype Builder =
    | Mint(contractModule: ModuleId, mintEntryFun: string, collectionOwner: Address)
    | Burn(admin: Address, contractModule: ModuleId, burnEntryFun: string)
  {
    function EntryFun(): string
    {
      if Mint? then mintEntryFun else burnEntryFun
    }
  }

  /** A builder both of whose names passed `IdentStr::new`. */
  predicate Valid(b: Builder)
  {
    IsIdentifier(b.contractModule.name) && IsIdentifier(b.EntryFun())
  }

  /** One unit of work: a mint recipient, or a burn target `(token, collection)`. */
  datatype WorkItem =
    | MintTarget(recipient: Address)
    | BurnTarget(token: Address, collection: Address)

  /** The work-item type each variant is instantiated with. */
  predicate Accepts(b: Builder, item: WorkItem)
  {
    (b.Mint? && item.MintTarget?) || (b.Burn? && item.BurnTarget?)
  }

  /** The transaction recorded on chain: only a signed user transaction has a sender. */
  datatype Transaction = UserTransaction(sender: Address) | OtherTransaction

  /** `TransactionOnChainData`, reduced to what the report reads: the results
      `get_mint_token_addr` and `get_burn_token_addr` give on its events, and
      the transaction itself. */
  datatype OnChainData = OnChainData(mintLookup: Result<Address>, burnLookup: Result<Address>, transaction: Transaction)

  /** `NftMintSignedTransactionBuilder::new`. */
  function NewMint(contractAddress: Address, moduleName: string, mintEntryFun: string, collectionOwner: Address): (b: Builder)
    requires IsIdentifier(moduleName) && IsIdentifier(mintEntryFun)
    ensures b.Mint? && Valid(b)
    ensures b.contractModule == GetModuleId(contractAddress, moduleName)
    ensures b.mintEntryFun == mintEntryFun && b.collectionOwner == collectionOwner
  {
    Mint(GetModuleId(contractAddress, moduleName), mintEntryFun, collectionOwner)
  }

  /** `NftBurnSignedTransactionBuilder::new`. */
  function NewBurn(contractAddress: Address, moduleName: string, burnEntryFun: string, admin: Address): (b: Builder)
    requires IsIdentifier(moduleName) && IsIdentifier(burnEntryFun)
    ensures b.Burn? && Valid(b)
    ensures b.contractModule == GetModuleId(contractAddress, moduleName)
    ensures b.burnEntryFun == burnEntryFun && b.admin == admin
  {
    Burn(admin, GetModuleId(contractAddress, moduleName), burnEntryFun)
  }

  // ---------------------------------------------------------------------------
  // build
  // ---------------------------------------------------------------------------

  /** Mint `build`: a single-signer call `contract_module::mint_entry_fun`
      with no type arguments and the arguments
      `(collection_config_object, recipient)` in that order. */
  function MintBuild(b: Builder, recipient: Address, account: Address): (t: SignedTransaction)
    requires b.Mint? && Valid(b)
    ensures t.sender == account && t.signers == SingleSigner
    ensures t.payload.moduleId == b.contractModule && t.payload.fun == b.mintEntryFun
    ensures t.payload.typeArgs == []
    ensures t.payload.args == [AddressArg(b.collectionOwner), AddressArg(recipient)]
  {
    SignedTransaction(account, SingleSigner,
      EntryFunction(b.contractModule, b.mintEntryFun, [],
        [AddressArg(b.collectionOwner), AddressArg(recipient)]))
  }

  /** Burn `build`: a multi-agent call `contract_module::burn_entry_fun`
      sent by the per-call account and co-signed by the admin alone, with the
      arguments `(collection_config_object, token)`: the work item's second
      component first. */
  function BurnBuild(b: Builder, token: Address, collection: Address, account: Address): (t: SignedTransaction)
    requires b.Burn? && Valid(b)
    ensures t.sender == account && t.signers == MultiAgent([b.admin])
    ensures t.payload.moduleId == b.contractModule && t.payload.fun == b.burnEntryFun
    ensures t.payload.typeArgs == []
    ensures t.payload.args == [AddressArg(collection), AddressArg(token)]
  {
    SignedTransaction(account, MultiAgent([b.admin]),
      EntryFunction(b.contractModule, b.burnEntryFun, [],
        [AddressArg(collection), AddressArg(token)]))
  }

  /** `build` dispatched on the variant. */
  function Build(b: Builder, item: WorkItem, account: Address): (t: SignedTransaction)
    requires Valid(b) && Accepts(b, item)
    ensures t.sender == account
    ensures t.payload.moduleId == b.contractModule && t.payload.fun == b.EntryFun()
    ensures t.payload.typeArgs == [] && |t.payload.args| == 2
    ensures MatchesSignature(t.payload.args, [TAddress, TAddress])
    ensures b.Mint? ==> AllSigners(t) == [account]
    ensures b.Burn? ==> AllSigners(t) == [account, b.admin]
  {
    match item
    case MintTarget(recipient) => MintBuild(b, recipient, account)
    case BurnTarget(token, collection) => BurnBuild(b, token, collection, account)
  }

  /** Reads the work item back out of a call, knowing which builder made it:
      the inverse of `Build` for this builder. */
  function ReadTarget(b: Builder, call: EntryFunction): Option<WorkItem>
  {
    if call.moduleId != b.contractModule || call.fun != b.EntryFun() || call.typeArgs != [] || |call.args| != 2 then None
    else match (call.args[0], call.args[1])
      case (AddressArg(first), AddressArg(second)) =>
        if b.Mint? then
          (if first == b.collectionOwner then Some(MintTarget(second)) else None)
        else Some(BurnTarget(second, first))
      case _ => None
  }

  /** The contract reads back exactly the work item the builder encoded. */
  lemma BuildRoundTrip(b: Builder, item: WorkItem, account: Address)
    requires Valid(b) && Accepts(b, item)
    ensures ReadTarget(b, Build(b, item, account).payload) == Some(item)
  {
  }

  /** Conversely, every call the decoder accepts is the payload the builder
      produces for the decoded item: there is exactly one encoding per item. */
  lemma ReadTargetOnlyBuilt(b: Builder, call: EntryFunction, account: Address)
    requires Valid(b) && ReadTarget(b, call).Some?
    ensures Accepts(b, ReadTarget(b, call).value)
    ensures Build(b, ReadTarget(b, call).value, account).payload == call
  {
    assert call.args == [call.args[0], call.args[1]];
  }

  /** Distinct work items give distinct calls. */
  lemma BuildInjective(b: Builder, i1: WorkItem, i2: WorkItem, account: Address)
    requires Valid(b) && Accepts(b, i1) && Accepts(b, i2)
    requires Build(b, i1, account).payload == Build(b, i2, account).payload
    ensures i1 == i2
  {
    BuildRoundTrip(b, i1, account);
    BuildRoundTrip(b, i2, account);
  }

  // ---------------------------------------------------------------------------
  // success_output
  // ---------------------------------------------------------------------------

  /** What a report's status column reports about one work item. */
  datatype Status = Succeeded | Failed(text: string) | Missing

  /** The intended status for an item whose event lookup gave `lookup`, or
      which has no on-chain outcome at all. */
  function StatusFor(lookup: Option<Result<Address>>): Status
  {
    match lookup
    case None => Missing
    case Some(Ok(_)) => Succeeded
    case Some(Err(e)) => Failed(e)
  }

  /** How a reader of the report interprets a status column. */
  function ReadStatus(column: string): Status
  {
    if column == "success" then Succeeded
    else if column == "missing" then Missing
    else Failed(column)
  }

  /** The report's text for a status. */
  function StatusText(s: Status): (column: string)
    ensures s.Failed? && s.text != "success" && s.text != "missing" ==> ReadStatus(column) == s
    ensures !s.Failed? ==> ReadStatus(column) == s
  {
    match s
    case Succeeded => "success"
    case Missing => "missing"
    case Failed(text) => text
  }

  /** An error text a reader cannot confuse with the two fixed statuses. */
  predicate Unambiguous(lookup: Option<Result<Address>>)
  {
    lookup.Some? && lookup.value.Err? ==> lookup.value.text != "success" && lookup.value.text != "missing"
  }

  /** The mint lookup of an optional outcome. */
  function MintLookup(out: Option<OnChainData>): Option<Result<Address>>
  {
    if out.Some? then Some(out.value.mintLookup) else None
  }

  /** The burn lookup of an optional outcome. */
  function BurnLookup(out: Option<OnChainData>): Option<Result<Address>>
  {
    if out.Some? then Some(out.value.burnLookup) else None
  }

  /** The four columns of a mint report: token, collection, recipient, status.
      The token column is filled only on success; the collection and the
      recipient are known before submission and are always filled. */
  function MintFields(b: Builder, recipient: Address, out: Option<OnChainData>, rd: Render): (f: seq<string>)
    requires b.Mint?
    ensures |f| == 4
    ensures out.None? ==> f[3] == "missing" && f[0] == ""
    ensures out.Some? && out.value.mintLookup.Ok? ==>
      f[3] == "success" && f[0] == rd.std(out.value.mintLookup.value)
    ensures out.Some? && out.value.mintLookup.Err? ==>
      f[3] == out.value.mintLookup.text && f[0] == ""
    ensures f[1] == rd.std(b.collectionOwner) && f[2] == rd.display(recipient)
  {
    var (status, token) :=
      match out
      case Some(data) =>
        (match data.mintLookup
         case Ok(dst) => ("success", rd.std(dst))
         case Err(e) => (e, ""))
      case None => ("missing", "");
    [token, rd.std(b.collectionOwner), rd.display(recipient), status]
  }

  /** Mint `success_output`. The line carries the format's three tabs plus any
      its columns hold, and splits back into exactly its four columns when the
      columns hold none. */
  function MintSuccessOutput(b: Builder, recipient: Address, out: Option<OnChainData>, rd: Render): (line: string)
    requires b.Mint?
    ensures TabSeparated.Count(line, TabSeparated.Tab) == 3 + TabSeparated.CountAll(MintFields(b, recipient, out, rd), TabSeparated.Tab)
    ensures TabSeparated.NoneContain(MintFields(b, recipient, out, rd), TabSeparated.Tab) ==>
      TabSeparated.Split(line, TabSeparated.Tab) == MintFields(b, recipient, out, rd)
  {
    var f := MintFields(b, recipient, out, rd);
    assert f == [f[0], f[1], f[2], f[3]];
    TabSeparated.Format4Fields(f[0], f[1], f[2], f[3]);
    TabSeparated.Format4(f[0], f[1], f[2], f[3])
  }

  /** Burn `success_output` is defined whenever the `unwrap` of the signed
      user transaction cannot panic: it is reached only after a successful
      burn lookup. */
  predicate BurnOutputDefined(out: Option<OnChainData>)
  {
    out.Some? && out.value.burnLookup.Ok? ==> out.value.transaction.UserTransaction?
  }

  /** The four columns of a burn report: refund address, token, collection,
      status. The refund column is the sender of the recorded transaction,
      filled only on success; token and collection are always filled, in the
      work item's order. */
  function BurnFields(token: Address, collection: Address, out: Option<OnChainData>, rd: Render): (f: seq<string>)
    requires BurnOutputDefined(out)
    ensures |f| == 4
    ensures out.None? ==> f[3] == "missing" && f[0] == ""
    ensures out.Some? && out.value.burnLookup.Ok? ==>
      f[3] == "success" && f[0] == rd.std(out.value.transaction.sender)
    ensures out.Some? && out.value.burnLookup.Err? ==>
      f[3] == out.value.burnLookup.text && f[0] == ""
    ensures f[1] == rd.std(token) && f[2] == rd.std(collection)
  {
    var (status, refund) :=
      match out
      case Some(data) =>
        (match data.burnLookup
         case Ok(_) => ("success", rd.std(data.transaction.sender))
         case Err(e) => (e, ""))
      case None => ("missing", "");
    [refund, rd.std(token), rd.std(collection), status]
  }

  /** Burn `success_output`, with the same line shape as the mint report. */
  function BurnSuccessOutput(token: Address, collection: Address, out: Option<OnChainData>, rd: Render): (line: string)
    requires BurnOutputDefined(out)
    ensures TabSeparated.Count(line, TabSeparated.Tab) == 3 + TabSeparated.CountAll(BurnFields(token, collection, out, rd), TabSeparated.Tab)
    ensures TabSeparated.NoneContain(BurnFields(token, collection, out, rd), TabSeparated.Tab) ==>
      TabSeparated.Split(line, TabSeparated.Tab) == BurnFields(token, collection, out, rd)
  {
    var f := BurnFields(token, collection, out, rd);
    assert f == [f[0], f[1], f[2], f[3]];
    TabSeparated.Format4Fields(f[0], f[1], f[2], f[3]);
    TabSeparated.Format4(f[0], f[1], f[2], f[3])
  }

  /** The lookup whose result decides an item's status. */
  function LookupOf(b: Builder, out: Option<OnChainData>): Option<Result<Address>>
  {
    if b.Mint? then MintLookup(out) else BurnLookup(out)
  }

  /** The columns `success_output` writes, dispatched on the variant. */
  function ReportFields(b: Builder, item: WorkItem, out: Option<OnChainData>, rd: Render): (f: seq<string>)
    requires Accepts(b, item)
    requires b.Burn? ==> BurnOutputDefined(out)
    ensures |f| == 4
    ensures f[3] == StatusText(StatusFor(LookupOf(b, out)))
    ensures StatusFor(LookupOf(b, out)) != Succeeded ==> f[0] == ""
    ensures item.MintTarget? ==> f[1..3] == [rd.std(b.collectionOwner), rd.display(item.recipient)]
    ensures item.BurnTarget? ==> f[1..3] == [rd.std(item.token), rd.std(item.collection)]
  {
    match item
    case MintTarget(recipient) => MintFields(b, recipient, out, rd)
    case BurnTarget(token, collection) => BurnFields(token, collection, out, rd)
  }

  /** `success_output` dispatched on the variant. */
  function SuccessOutput(b: Builder, item: WorkItem, out: Option<OnChainData>, rd: Render): (line: string)
    requires Accepts(b, item)
    requires b.Burn? ==> BurnOutputDefined(out)
    ensures TabSeparated.NoneContain(ReportFields(b, item, out, rd), TabSeparated.Tab) ==>
      TabSeparated.Split(line, TabSeparated.Tab) == ReportFields(b, item, out, rd)
  {
    match item
    case MintTarget(recipient) => MintSuccessOutput(b, recipient, out, rd)
    case BurnTarget(token, collection) => BurnSuccessOutput(token, collection, out, rd)
  }

  // ---------------------------------------------------------------------------
  // Properties of the report
  // ---------------------------------------------------------------------------

  /** No error text the lookup may return contains a tab. */
  predicate ErrorTabFree(lookup: Option<Result<Address>>)
  {
    lookup.Some? && lookup.value.Err? ==> TabSeparated.Tab !in lookup.value.text
  }

  /** With tab-free renderings and error text, every report line, of either
      variant and whatever the outcome, splits into exactly four fields whose
      last one reads back as the intended status: `success` after a found
      event, the error's text after a failed lookup, `missing` without an
      outcome. */
  lemma ReportLineShape(b: Builder, item: WorkItem, out: Option<OnChainData>, rd: Render)
    requires Accepts(b, item)
    requires b.Burn? ==> BurnOutputDefined(out)
    requires RendersTabFree(rd) && ErrorTabFree(LookupOf(b, out))
    ensures |TabSeparated.Split(SuccessOutput(b, item, out, rd), TabSeparated.Tab)| == 4
    ensures TabSeparated.Split(SuccessOutput(b, item, out, rd), TabSeparated.Tab)[3] == StatusText(StatusFor(LookupOf(b, out)))
  {
    var f := ReportFields(b, item, out, rd);
    assert TabSeparated.NoneContain(f, TabSeparated.Tab) by {
      match item
      case MintTarget(recipient) =>
        assert TabSeparated.Tab !in rd.std(b.collectionOwner) && TabSeparated.Tab !in rd.display(recipient);
        if out.Some? && out.value.mintLookup.Ok? {
          assert TabSeparated.Tab !in rd.std(out.value.mintLookup.value);
        }
      case BurnTarget(token, collection) =>
        assert TabSeparated.Tab !in rd.std(token) && TabSeparated.Tab !in rd.std(collection);
        if out.Some? && out.value.burnLookup.Ok? {
          assert TabSeparated.Tab !in rd.std(out.value.transaction.sender);
        }
    }
  }

  /** A reader recovers the intended status from the status column in both
      directions, as long as no error text spells one of the fixed statuses;
      and the outcome-derived first column is filled exactly on success. */
  lemma StatusColumnFaithful(b: Builder, item: WorkItem, out: Option<OnChainData>, rd: Render)
    requires Accepts(b, item)
    requires b.Burn? ==> BurnOutputDefined(out)
    requires Unambiguous(LookupOf(b, out)) && RendersNonEmpty(rd)
    ensures ReadStatus(ReportFields(b, item, out, rd)[3]) == StatusFor(LookupOf(b, out))
    ensures ReportFields(b, item, out, rd)[3] == "success" <==> out.Some? && LookupOf(b, out).value.Ok?
    ensures ReportFields(b, item, out, rd)[0] != "" <==> StatusFor(LookupOf(b, out)) == Succeeded
  {
    match item
    case MintTarget(recipient) =>
      if out.Some? && out.value.mintLookup.Ok? {
        assert rd.std(out.value.mintLookup.value) != "";
      }
    case BurnTarget(token, collection) =>
      if out.Some? && out.value.burnLookup.Ok? {
        assert rd.std(out.value.transaction.sender) != "";
      }
  }

  /** The columns that come from the work item and the configuration are the
      same whatever the outcome: a failed or missing item keeps its line. */
  lemma KnownColumnsIndependentOfOutcome(b: Builder, item: WorkItem, o1: Option<OnChainData>, o2: Option<OnChainData>, rd: Render)
    requires Accepts(b, item)
    requires b.Burn? ==> BurnOutputDefined(o1) && BurnOutputDefined(o2)
    ensures ReportFields(b, item, o1, rd)[1..3] == ReportFields(b, item, o2, rd)[1..3]
  {
  }

  /** The burn call and the burn report name the same two addresses in
      opposite orders: the call passes collection then token, the report
      prints token then collection. */
  lemma BurnOrderReversed(b: Builder, token: Address, collection: Address, account: Address, out: Option<OnChainData>, rd: Render)
    requires b.Burn? && Valid(b) && BurnOutputDefined(out)
    ensures var args := BurnBuild(b, token, collection, account).payload.args;
      BurnFields(token, collection, out, rd)[1..3] == [rd.std(args[1].address), rd.std(args[0].address)]
  {
  }

  /** When the recorded transaction is the one built for the item, a
      successful burn reports the per-call account that sent it as the refund
      address; under an injective rendering, that is never the co-signing
      admin's address unless the admin sent it. */
  lemma RefundGoesToSender(b: Builder, token: Address, collection: Address, account: Address, out: Option<OnChainData>, rd: Render)
    requires b.Burn? && Valid(b)
    requires out.Some? && out.value.burnLookup.Ok?
    requires out.value.transaction == UserTransaction(BurnBuild(b, token, collection, account).sender)
    ensures BurnFields(token, collection, out, rd)[0] == rd.std(account)
    ensures StdInjective(rd) && account != b.admin ==> BurnFields(token, collection, out, rd)[0] != rd.std(b.admin)
  {
  }

  /** The command line's default module and entry-function names satisfy
      the constructors' precondition. */
  lemma DefaultNamesAreIdentifiers()
    ensures IsIdentifier("only_on_aptos")
    ensures IsIdentifier("mint_to_recipient") && IsIdentifier("burn_with_admin_worker")
  {
  }

  /** A minted token's line: token, collection, recipient, `success`. */
  lemma MintedExample(b: Builder, a1: Address, c1: Address, ff: Address, other: Result<Address>, rd: Render)
    requires b.Mint? && b.collectionOwner == c1
    requires rd.std(c1) == "0xC1" && rd.std(ff) == "0xFF" && rd.display(a1) == "0xA1"
    ensures MintSuccessOutput(b, a1, Some(OnChainData(Ok(ff), other, UserTransaction(a1))), rd) == "0xFF\t0xC1\t0xA1\tsuccess"
  {
    var out := Some(OnChainData(Ok(ff), other, UserTransaction(a1)));
    var f := MintFields(b, a1, out, rd);
    assert f == ["0xFF", "0xC1", "0xA1", "success"] by {
      assert f[0] == "0xFF" && f[1] == "0xC1" && f[2] == "0xA1" && f[3] == "success";
    }
    assert MintSuccessOutput(b, a1, out, rd) == TabSeparated.Format4(f[0], f[1], f[2], f[3]);
  }

  /** A mint without any outcome: empty token column, `missing` status. */
  lemma MissingExample(b: Builder, a2: Address, c1: Address, rd: Render)
    requires b.Mint? && b.collectionOwner == c1
    requires rd.std(c1) == "0xC1" && rd.display(a2) == "0xA2"
    ensures MintSuccessOutput(b, a2, None, rd) == "\t0xC1\t0xA2\tmissing"
  {
    var f := MintFields(b, a2, None, rd);
    assert f == ["", "0xC1", "0xA2", "missing"] by {
      assert f[0] == "" && f[1] == "0xC1" && f[2] == "0xA2" && f[3] == "missing";
    }
    assert MintSuccessOutput(b, a2, None, rd) == TabSeparated.Format4(f[0], f[1], f[2], f[3]);
  }

  /** A confirmed burn: refund to the sender, then token, collection, `success`. */
  lemma BurnedExample(a3: Address, c1: Address, t1: Address, data: OnChainData, rd: Render)
    requires data.burnLookup.Ok? && data.transaction == UserTransaction(a3)
    requires rd.std(c1) == "0xC1" && rd.std(t1) == "0xT1" && rd.std(a3) == "0xA3"
    ensures BurnSuccessOutput(t1, c1, Some(data), rd) == "0xA3\t0xT1\t0xC1\tsuccess"
  {
    var f := BurnFields(t1, c1, Some(data), rd);
    assert f == ["0xA3", "0xT1", "0xC1", "success"] by {
      assert f[0] == "0xA3" && f[1] == "0xT1" && f[2] == "0xC1" && f[3] == "success";
    }
    assert BurnSuccessOutput(t1, c1, Some(data), rd) == TabSeparated.Format4(f[0], f[1], f[2], f[3]);
  }
}

=== FILE: collection.dfy ===
/** `create_test_collection`: two dependent admin transactions. The first
    creates a collection; the address of its configuration object is read from
    the `CreateCollectionConfig` event it emits, and the second transaction
    switches minting on for that object. The network round trip
    (`submit_and_wait_bcs`) is a parameter of the model. */
module Collection {
  import opened Wrappers
  import opened MoveTypes

  /** `CreateCollectionConfigMoveStruct`: the payload of the create event. */
  datatype CollectionConfigEvent = CollectionConfigEvent(collectionConfig: Address, collection: Address, readyToMint: bool)

  /** What waiting for a submitted transaction yields: whether its final
      status is success, and what `search_single_event_data` finds for the
      module's `CreateCollectionConfig` event type among its events. */
  datatype TxnOutput = TxnOutput(success: bool, configEvent: Result<CollectionConfigEvent>)

  /** How the procedure ends: it returns an address, returns an error through
      `?`, or panics in `assert!` on a non-success status. */
  datatype Exit = Returned(collectionConfig: Address) | Failed(text: string) | AssertionFailed

  /** The transactions submitted, in order, and how the procedure ended. */
  datatype Run = Run(submitted: seq<SignedTransaction>, exit: Exit)

  /** The parameter types of `create_collection`, in order, as named by the
      comment beside each argument where the call is built (the contract's
      own declaration is not part of this model). */
  const CreateCollectionParams: seq<ParamType> := [
    TString,     // collection_name
    TString,     // collection_description
    TString,     // collection_uri
    TString,     // token_name_prefix
    TString,     // token_description
    TVecString,  // token_uris
    TVecU64,     // token_uris_weights
    TBool,       // mutable_collection_metadata
    TBool,       // mutable_token_metadata
    TBool,       // tokens_burnable_by_collection_owner
    TBool,       // tokens_transferrable_by_collection_owner
    TOptionU64,  // max_supply
    TOptionU64,  // royalty_numerator
    TOptionU64   // royalty_denominator
  ]

  /** The parameter types of `set_minting_status`, as given by the values
      passed to it (its declaration is not part of this model). */
  const SetMintingStatusParams: seq<ParamType> := [TAddress, TBool]

  /** The collection name: a fixed prefix and a random suffix (a parameter here). */
  function CollectionName(suffix: string): (name: string)
    ensures |name| == 16 + |suffix|
    ensures name[..16] == "Test Collection " && name[16..] == suffix
  {
    "Test Collection " + suffix
  }

  /** The fourteen `create_collection` arguments, in the order the argument
      comments name them. */
  function CreateCollectionArgs(collectionName: string): (args: seq<Arg>)
    ensures MatchesSignature(args, CreateCollectionParams)
  {
    var args := [
      StringArg(collectionName),
      StringArg("collection description"),
      StringArg("htpps://some.collection.uri.test"),
      StringArg("test token #"),
      StringArg("test token description"),
      StringVecArg(["htpps://some.uri1.test", "htpps://some.uri2.test"]),
      U64VecArg([10, 1]),
      BoolArg(true),
      BoolArg(true),
      BoolArg(true),
      BoolArg(false),
      OptionU64Arg(Some(1000000)),
      OptionU64Arg(None),
      OptionU64Arg(None)
    ];
    assert forall i | 0 <= i < |args| :: TypeOf(args[i]) == CreateCollectionParams[i] by {
      forall i | 0 <= i < |args| ensures TypeOf(args[i]) == CreateCollectionParams[i] {
        if i < 5 { } else if i < 7 { } else if i < 11 { } else { }
      }
    }
    args
  }

  /** The `create_collection` call: fourteen arguments matching the named
      parameter types, two token URIs weighted 10 to 1, burnable but not
      transferable by the owner, a supply bound of one million, and no
      royalty. The remaining fixed values are stated by
      `CreateCollectionFixedValues`. */
  function CreateCollectionCall(m: ModuleId, collectionName: string): (call: EntryFunction)
    ensures call.moduleId == m && call.fun == "create_collection" && call.typeArgs == []
    ensures IsIdentifier(call.fun)
    ensures MatchesSignature(call.args, CreateCollectionParams)
    ensures call.args[0] == StringArg(collectionName)
    ensures call.args[5].texts == ["htpps://some.uri1.test", "htpps://some.uri2.test"]
    ensures call.args[6] == U64VecArg([10, 1])
    ensures call.args[9] == BoolArg(true) && call.args[10] == BoolArg(false)
    ensures call.args[11] == OptionU64Arg(Some(1000000))
    ensures call.args[12] == OptionU64Arg(None) && call.args[13] == OptionU64Arg(None)
  {
    FixedNamesAreIdentifiers();
    EntryFunction(m, "create_collection", [], CreateCollectionArgs(collectionName))
  }

  /** The rest of the fixed `create_collection` arguments: the description,
      URI and token-name strings, and mutable collection and token metadata. */
  lemma CreateCollectionFixedValues(m: ModuleId, collectionName: string)
    ensures var args := CreateCollectionCall(m, collectionName).args;
      && args[1] == StringArg("collection description")
      && args[2] == StringArg("htpps://some.collection.uri.test")
      && args[3] == StringArg("test token #")
      && args[4] == StringArg("test token description")
      && args[7] == BoolArg(true) && args[8] == BoolArg(true)
  {
  }

  /** The `set_minting_status` call switching minting on for `config`. */
  function SetMintingStatusCall(m: ModuleId, config: Address): (call: EntryFunction)
    ensures call.moduleId == m && call.fun == "set_minting_status" && call.typeArgs == []
    ensures IsIdentifier(call.fun)
    ensures MatchesSignature(call.args, SetMintingStatusParams)
    ensures call.args == [AddressArg(config), BoolArg(true)]
  {
    FixedNamesAreIdentifiers();
    EntryFunction(m, "set_minting_status", [], [AddressArg(config), BoolArg(true)])
  }

  /** The create transaction reached finality with success status and
      carried the expected event. */
  predicate CreateConfirmed(o: Result<TxnOutput>)
  {
    o.Ok? && o.value.success && o.value.configEvent.Ok?
  }

  /** A transaction reached finality with success status. */
  predicate FinalizedOk(o: Result<TxnOutput>)
  {
    o.Ok? && o.value.success
  }

  /** `create_test_collection`, signed throughout by `admin`. */
  function CreateTestCollection(contractAddress: Address, moduleName: string, admin: Address, nameSuffix: string,
                                submit: SignedTransaction -> Result<TxnOutput>): (run: Run)
    requires IsIdentifier(moduleName)
    ensures 1 <= |run.submitted| <= 2
    ensures run.submitted[0] == SignedTransaction(admin, SingleSigner,
      CreateCollectionCall(GetModuleId(contractAddress, moduleName), CollectionName(nameSuffix)))
    // activation is attempted exactly when creation was confirmed with its event
    ensures |run.submitted| == 2 <==> CreateConfirmed(submit(run.submitted[0]))
    // and it targets the configuration object named by that event
    ensures |run.submitted| == 2 ==> run.submitted[1] == SignedTransaction(admin, SingleSigner,
      SetMintingStatusCall(GetModuleId(contractAddress, moduleName),
        submit(run.submitted[0]).value.configEvent.value.collectionConfig))
    // the procedure returns exactly when both transactions succeeded, and
    // returns the address it activated
    ensures run.exit.Returned? <==> |run.submitted| == 2 && FinalizedOk(submit(run.submitted[1]))
    ensures run.exit.Returned? ==> run.exit.collectionConfig == submit(run.submitted[0]).value.configEvent.value.collectionConfig
    // a panic comes exactly from a finalized transaction whose status is not success
    ensures run.exit.AssertionFailed? <==>
      var last := submit(run.submitted[|run.submitted| - 1]); last.Ok? && !last.value.success
    // `?` gives up exactly when a submission fails or the create event is not found
    ensures run.exit.Failed? <==>
      var last := submit(run.submitted[|run.submitted| - 1]);
      last.Err? || (|run.submitted| == 1 && last.value.success && last.value.configEvent.Err?)
    // and hands back that step's own error unchanged
    ensures run.exit.Failed? ==>
      var last := submit(run.submitted[|run.submitted| - 1]);
      run.exit.text == (if last.Err? then last.text else last.value.configEvent.text)
  {
    var m := GetModuleId(contractAddress, moduleName);
    var create := SignedTransaction(admin, SingleSigner, CreateCollectionCall(m, CollectionName(nameSuffix)));
    match submit(create)
    case Err(e) => Run([create], Failed(e))
    case Ok(output) =>
      if !output.success then Run([create], AssertionFailed)
      else match output.configEvent
        case Err(e) => Run([create], Failed(e))
        case Ok(event) =>
          var collectionOwner := event.collectionConfig;
          var start := SignedTransaction(admin, SingleSigner, SetMintingStatusCall(m, collectionOwner));
          match submit(start)
          case Err(e) => Run([create, start], Failed(e))
          case Ok(output2) =>
            if !output2.success then Run([create, start], AssertionFailed)
            else Run([create, start], Returned(collectionOwner))
  }

  /** No activation call is ever built after a failed or rejected create, or
      when the create event is missing: every `set_minting_status` submitted
      follows a confirmed create. */
  lemma NoActivationWithoutEvent(contractAddress: Address, moduleName: string, admin: Address, nameSuffix: string,
                                 submit: SignedTransaction -> Result<TxnOutput>)
    requires IsIdentifier(moduleName)
    ensures var run := CreateTestCollection(contractAddress, moduleName, admin, nameSuffix, submit);
      forall i :: 0 <= i < |run.submitted| && run.submitted[i].payload.fun == "set_minting_status" ==>
        i == 1 && CreateConfirmed(submit(run.submitted[0]))
  {
    var run := CreateTestCollection(contractAddress, moduleName, admin, nameSuffix, submit);
    assert run.submitted[0].payload.fun == "create_collection";
  }

  /** The activation target depends on nothing but the create event: two
      networks that answer the create transaction alike see the same
      activation call, and it names the event's configuration object rather
      than its collection. */
  lemma ActivationTargetFromEvent(contractAddress: Address, moduleName: string, admin: Address, nameSuffix: string,
                                  submit1: SignedTransaction -> Result<TxnOutput>, submit2: SignedTransaction -> Result<TxnOutput>)
    requires IsIdentifier(moduleName)
    requires var create := CreateTestCollection(contractAddress, moduleName, admin, nameSuffix, submit1).submitted[0];
      CreateConfirmed(submit1(create)) && submit1(create) == submit2(create)
    ensures var r1 := CreateTestCollection(contractAddress, moduleName, admin, nameSuffix, submit1);
      var r2 := CreateTestCollection(contractAddress, moduleName, admin, nameSuffix, submit2);
      var event := submit1(r1.submitted[0]).value.configEvent.value;
      && |r1.submitted| == 2 && |r2.submitted| == 2
      && r1.submitted[1] == r2.submitted[1]
      && r1.submitted[1].payload.args[0] == AddressArg(event.collectionConfig)
  {
  }

  /** The two function names the procedure spells out pass `ident_str!`. */
  lemma FixedNamesAreIdentifiers()
    ensures IsIdentifier("create_collection") && IsIdentifier("set_minting_status")
  {
  }
}

=== FILE: move_types.dfy ===
/** The ledger-side vocabulary the builders speak: account addresses, Move
    identifiers and module ids, typed entry-function arguments, and signed
    transactions reduced to who signs them and what they call. */
module MoveTypes {
  import opened Wrappers
  import TabSeparated

  /** `AccountAddress`: 32 raw bytes. */
  type Address = b: seq<bv8> | |b| == 32 witness seq(32, _ => 0 as bv8)

  /** Move's `u64`. */
  type U64 = n: nat | n < 0x1_0000_0000_0000_0000

  /** How an address is turned into report text. `std` is
      `AccountAddress::to_standard_string` and `display` is its `Display`
      implementation; the two are distinct library renderings, kept abstract. */
  datatype Render = Render(std: Address -> string, display: Address -> string)

  /** No rendering of any address contains a tab. */
  ghost predicate RendersTabFree(rd: Render)
  {
    forall a: Address :: TabSeparated.Tab !in rd.std(a) && TabSeparated.Tab !in rd.display(a)
  }

  /** No standard rendering of any address is empty. */
  ghost predicate RendersNonEmpty(rd: Render)
  {
    forall a: Address :: rd.std(a) != ""
  }

  /** Distinct addresses have distinct standard renderings. */
  ghost predicate StdInjective(rd: Render)
  {
    forall a1: Address, a2: Address :: rd.std(a1) == rd.std(a2) ==> a1 == a2
  }

  predicate IsLetter(c: char)
  {
    'a' <= c <= 'z' || 'A' <= c <= 'Z'
  }

  predicate IsIdentifierChar(c: char)
  {
    IsLetter(c) || '0' <= c <= '9' || c == '_'
  }

  /** What `IdentStr::new` accepts: a letter followed by letters, digits and
      underscores, or an underscore followed by at least one of those. */
  predicate IsIdentifier(s: string)
  {
    && |s| > 0
    && (IsLetter(s[0]) || (s[0] == '_' && |s| > 1))
    && forall i :: 1 <= i < |s| ==> IsIdentifierChar(s[i])
  }

  /** `ModuleId`: the account that published a module and the module's name. */
  datatype ModuleId = ModuleId(address: Address, name: string)

  /** `get_module_id`: the module reference every call of a builder goes to.
      The name must be an identifier: the source unwraps `IdentStr::new`, so
      any other name is a panic at construction time. */
  function GetModuleId(contractAddress: Address, moduleName: string): (m: ModuleId)
    requires IsIdentifier(moduleName)
    ensures m.address == contractAddress && m.name == moduleName
    ensures IsIdentifier(m.name)
  {
    ModuleId(contractAddress, moduleName)
  }

  /** Two module references coincide exactly when they were resolved from the
      same address and name. */
  lemma ModuleIdDeterminedByInputs(a1: Address, n1: string, a2: Address, n2: string)
    requires IsIdentifier(n1) && IsIdentifier(n2)
    ensures GetModuleId(a1, n1) == GetModuleId(a2, n2) <==> a1 == a2 && n1 == n2
  {
  }

  /** A Move type argument; every call in this model passes none. */
  datatype TypeTag = TypeTag(name: string)

  /** One argument before its canonical (BCS) encoding, kept as a typed value. */
  datatype Arg =
    | AddressArg(address: Address)
    | BoolArg(flag: bool)
    | StringArg(text: string)
    | StringVecArg(texts: seq<string>)
    | U64VecArg(numbers: seq<U64>)
    | OptionU64Arg(maybe: Option<U64>)

  /** The Move type of a parameter, as the on-chain function declares it. */
  datatype ParamType = TAddress | TBool | TString | TVecString | TVecU64 | TOptionU64

  function TypeOf(arg: Arg): ParamType
  {
    match arg
    case AddressArg(_) => TAddress
    case BoolArg(_) => TBool
    case StringArg(_) => TString
    case StringVecArg(_) => TVecString
    case U64VecArg(_) => TVecU64
    case OptionU64Arg(_) => TOptionU64
  }

  /** The arguments line up one to one with the declared parameter types. */
  predicate MatchesSignature(args: seq<Arg>, params: seq<ParamType>)
  {
    |args| == |params| && forall i :: 0 <= i < |args| ==> TypeOf(args[i]) == params[i]
  }

  /** `EntryFunction`: module, function name, type arguments, arguments in order. */
  datatype EntryFunction = EntryFunction(moduleId: ModuleId, fun: string, typeArgs: seq<TypeTag>, args: seq<Arg>)

  /** Who signs besides the sender: nobody (`sign_with_transaction_builder`)
      or a list of secondary signers (`sign_multi_agent_with_transaction_builder`). */
  datatype Signers = SingleSigner | MultiAgent(secondary: seq<Address>)

  /** A signed transaction, reduced to its signers and its payload. Sequence
      numbers, gas, expiry and the signatures themselves are not modelled. */
  datatype SignedTransaction = SignedTransaction(sender: Address, signers: Signers, payload: EntryFunction)

  /** Every account whose signature the transaction carries, sender first. */
  function AllSigners(t: SignedTransaction): (s: seq<Address>)
    ensures |s| >= 1 && s[0] == t.sender
    ensures t.signers.SingleSigner? ==> s == [t.sender]
  {
    match t.signers
    case SingleSigner => [t.sender]
    case MultiAgent(secondary) => [t.sender] + secondary
  }
}

=== FILE: tab_separated.dfy ===
/** Tab-separated report lines.

    A report line is written with the format string "{}\t{}\t{}\t{}" and read
    back by splitting on the tab character. This module defines splitting and
    joining on a separator, proves that they are inverse to each other, and
    counts separators so that a line's field count can be stated. */
module TabSeparated {

  const Tab: char := '\t'

  /** Number of occurrences of `c` in `s`. */
  function Count(s: string, c: char): (n: nat)
    ensures n <= |s|
    ensures n == 0 <==> c !in s
  {
    if |s| == 0 then 0
    else
      assert s == [s[0]] + s[1..];
      (if s[0] == c then 1 else 0) + Count(s[1..], c)
  }

  /** Total number of occurrences of `c` over all `fields`. */
  function CountAll(fields: seq<string>, c: char): nat
  {
    if |fields| == 0 then 0 else Count(fields[0], c) + CountAll(fields[1..], c)
  }

  /** No field contains the separator. */
  predicate NoneContain(fields: seq<string>, sep: char)
  {
    forall i :: 0 <= i < |fields| ==> sep !in fields[i]
  }

  lemma {:induction false} CountConcat(a: string, b: string, c: char)
    ensures Count(a + b, c) == Count(a, c) + Count(b, c)
    decreases |a|
  {
    if |a| == 0 {
      assert a + b == b;
    } else {
      assert (a + b)[0] == a[0];
      assert (a + b)[1..] == a[1..] + b;
      CountConcat(a[1..], b, c);
    }
  }

  /** Splits `s` at every occurrence of `sep`. Like Rust's `str::split`, an
      empty string yields one empty field and adjacent separators yield an
      empty field between them. */
  function Split(s: string, sep: char): (fields: seq<string>)
    ensures |fields| == Count(s, sep) + 1
    ensures NoneContain(fields, sep)
    decreases |s|
  {
    if |s| == 0 then [""]
    else
      var rest := Split(s[1..], sep);
      if s[0] == sep then [""] + rest
      else [[s[0]] + rest[0]] + rest[1..]
  }

  /** Concatenates `fields` with one `sep` between neighbours. */
  function Join(fields: seq<string>, sep: char): (s: string)
    requires |fields| > 0
    ensures Count(s, sep) == |fields| - 1 + CountAll(fields, sep)
    decreases |fields|
  {
    if |fields| == 1 then fields[0]
    else
      var tail := Join(fields[1..], sep);
      CountConcat(fields[0] + [sep], tail, sep);
      CountConcat(fields[0], [sep], sep);
      fields[0] + [sep] + tail
  }

  /** The four-placeholder format "{}\t{}\t{}\t{}" used by both report lines. */
  function Format4(a: string, b: string, c: string, d: string): (line: string)
    ensures line == Join([a, b, c, d], Tab)
  {
    assert [a, b, c, d][1..] == [b, c, d];
    assert [b, c, d][1..] == [c, d];
    assert [c, d][1..] == [d];
    assert Join([c, d], Tab) == c + [Tab] + d;
    assert Join([b, c, d], Tab) == b + [Tab] + (c + [Tab] + d);
    assert Join([a, b, c, d], Tab) == a + [Tab] + (b + [Tab] + (c + [Tab] + d));
    a + [Tab] + b + [Tab] + c + [Tab] + d
  }

  /** A string without the separator is a single field. */
  lemma {:induction false} SplitWithoutSeparator(a: string, sep: char)
    requires sep !in a
    ensures Split(a, sep) == [a]
    decreases |a|
  {
    if |a| > 0 {
      SplitWithoutSeparator(a[1..], sep);
      assert [a[0]] + a[1..] == a;
    }
  }

  /** One unfolding of `Split` on a non-empty string. */
  lemma SplitCons(x: char, t: string, sep: char)
    ensures x == sep ==> Split([x] + t, sep) == [""] + Split(t, sep)
    ensures x != sep ==> Split([x] + t, sep) == [[x] + Split(t, sep)[0]] + Split(t, sep)[1..]
  {
    assert ([x] + t)[1..] == t;
  }

  /** Splitting a separator-free head followed by the separator peels off the head. */
  lemma {:induction false} SplitAtFirst(a: string, b: string, sep: char)
    requires sep !in a
    ensures Split(a + [sep] + b, sep) == [a] + Split(b, sep)
    decreases |a|
  {
    if |a| == 0 {
      assert a + [sep] + b == [sep] + b;
      SplitCons(sep, b, sep);
    } else {
      var tail := a[1..] + [sep] + b;
      assert a + [sep] + b == [a[0]] + tail;
      SplitCons(a[0], tail, sep);
      SplitAtFirst(a[1..], b, sep);
      assert [a[0]] + a[1..] == a;
    }
  }

  /** Splitting a joined line gives back its fields, provided no field
      contains the separator. */
  lemma {:induction false} SplitJoin(fields: seq<string>, sep: char)
    requires |fields| > 0
    requires NoneContain(fields, sep)
    ensures Split(Join(fields, sep), sep) == fields
    decreases |fields|
  {
    if |fields| == 1 {
      SplitWithoutSeparator(fields[0], sep);
    } else {
      assert sep !in fields[0];
      SplitJoin(fields[1..], sep);
      SplitAtFirst(fields[0], Join(fields[1..], sep), sep);
      assert [fields[0]] + fields[1..] == fields;
    }
  }

  /** Joining the fields of a split line gives back the line, whatever it holds. */
  lemma {:induction false} JoinSplit(s: string, sep: char)
    ensures Join(Split(s, sep), sep) == s
    decreases |s|
  {
    if |s| > 0 {
      var rest := Split(s[1..], sep);
      JoinSplit(s[1..], sep);
      if s[0] == sep {
        assert ([""] + rest)[1..] == rest;
        assert s == [sep] + s[1..];
      } else {
        var fields := [[s[0]] + rest[0]] + rest[1..];
        if |rest| == 1 {
          assert Join(rest, sep) == rest[0];
        } else {
          assert fields[1..] == rest[1..];
          assert Join(rest, sep) == rest[0] + [sep] + Join(rest[1..], sep);
        }
        assert s == [s[0]] + s[1..];
      }
    }
  }

  /** A four-field line: it has exactly three separators more than its
      fields hold, and when no field holds one it splits back into exactly
      those four fields. */
  lemma Format4Fields(a: string, b: string, c: string, d: string)
    ensures Count(Format4(a, b, c, d), Tab) == 3 + CountAll([a, b, c, d], Tab)
    ensures NoneContain([a, b, c, d], Tab) ==> Split(Format4(a, b, c, d), Tab) == [a, b, c, d]
  {
    if NoneContain([a, b, c, d], Tab) {
      SplitJoin([a, b, c, d], Tab);
    }
  }
}

=== FILE: wrappers.dfy ===
/** Failure-carrying wrappers shared by the whole model.

    `Result` stands for Rust's `anyhow::Result`: the error side keeps only what
    the code ever reads of an error, its `to_string()` text. */
module Wrappers {

  /** Rust's `Option`. */
  datatype Option<+T> = None | Some(value: T)

  /** `anyhow::Result<T>`; `text` is the error's rendering as a string. */
  datatype Result<+T> = Ok(value: T) | Err(text: string)
}
